=== FILE: README.md ===
# Black hole: gesture tracker and frame geometry, in Dafny

This project models the two pieces of logic in the black-hole visualisation's
`Script.js`. The rest of the script is browser glue.

- **Gesture tracker.** The canvas's pointer-down, pointer-move and pointer-up
  handlers keep three things: a map of active pointers (id to last position),
  the camera (`zoom`, `offsetX`, `offsetY`), and two values the script hangs on
  the canvas object, the pinch baseline `startDist` and the last-tap time
  `lastTap`. Here each handler is a pure function from one `Gesture.State` to
  the next. `Gesture.Step` dispatches an event and `Gesture.Run` folds a
  sequence of events.
- **Frame geometry.** These are the linear parts of `animate`: the viewport
  centre, the camera transform, the event-horizon, rim and accretion-arc radii,
  the parallax projection of the stars, and the step layout of the decorative
  helix.

Modules:

- `Camera` (`camera.dfy`) holds the points, the view, the zoom limits, the
  clamp and the pinch factor.
- `Gesture` (`gesture.dfy`) holds the tracker state, the events and the three
  handlers.
- `GestureProperties` (`gesture_properties.dfy`) holds the properties that span
  several events.
- `Scene` (`scene.dfy`) holds the radii, the camera transform and the star
  projection.
- `Parallax` (`parallax.dfy`) states what gestures do to the picture.
- `Helix` (`helix.dfy`) holds the helix loop.

Modelling decisions:

- Coordinates, offsets, distances and the zoom are `real`. This idealises
  JavaScript doubles: the model has no rounding, no NaN and no infinity.
- `Date.now()` becomes the `now` field of a pointer-down event. `Math.hypot`
  becomes the parameter `hypot: (real, real) -> real`, which is applied to the
  second pointer's position minus the first's.
- Pointer ids are `nat`. JavaScript lists an object's integer keys in ascending
  order, so `ids[0]` is the smaller tracked id (`Gesture.PinchPair`).
- `canvas.lastTap || 0` is `LastTapOrZero`: an unset time reads as 0.
- `!canvas.startDist` is JavaScript truthiness. An unset (`None`) baseline and a
  baseline of exactly 0 are both absent (`HasBaseline`). A zero distance is
  stored as `Some(0.0)` and so leads to a reseed, as it does in the script.
- A pointer-down for an id that is already tracked overwrites its position.
- `lastTap` is overwritten on every pointer-down, including the one that resets
  the camera (Script.js:112). Any two pointer-downs count, whichever pointers
  they come from. So a second finger that lands within 300 ms of the first also
  resets the camera.
- The baseline is cleared only when fewer than two pointers remain
  (Script.js:144-146). So if three fingers are down and one is lifted, the
  baseline measured between an earlier pair survives, and the next pinch
  compares against it. `GestureProperties.BaselineOutlivesItsPair` states this
  behaviour.
- The invariant that every reachable state keeps is `Gesture.Valid`: the zoom
  is in [0.1, 3], and a baseline exists only while at least two pointers are
  tracked.

## Model

| member | source | states |
|---|---|---|
| Camera.ClampZoom | Script.js:136-137 | The result is always in [0.1, 3]. It equals the input exactly when the input is already in range. Inputs at or below 0.1 give 0.1, and inputs at or above 3 give 3. |
| Camera.PinchFactor | Script.js:133-134 | The factor `1 + delta/200` is above 1 exactly when the fingers spread and below 1 exactly when they close. It is zero or negative exactly when they close by 200 px or more. |
| Camera.PinchZoom | Script.js:133-137 | A pinch step multiplies the zoom by `1 + delta/200`. When that product is in [0.1, 3], it is the new zoom. A product below 0.1 gives 0.1, and one above 3 gives 3. So the result is always in [0.1, 3]. An in-range zoom is kept when the distance is unchanged, and any positive zoom lands on 0.1 when `1 + delta/200` is zero or negative. |
| Camera.PinchDirection | Script.js:133-137 | From an in-range zoom, spreading the fingers never zooms out and closing them never zooms in. |
| Gesture.LastTapOrZero | Script.js:106 | The last-tap time with the script's fallback to 0: a set time is itself, and the result is 0 exactly when the time is unset or 0, both of which JavaScript treats as falsy. |
| Gesture.HasBaseline | Script.js:130 | The baseline test `!canvas.startDist` in JavaScript truthiness: the baseline counts as absent exactly when it is unset or 0. |
| Gesture.PinchDistance | Script.js:127-129 | With two tracked pointers, the distance is `hypot` of the larger id's position minus the smaller id's position. |
| Gesture.PinchPair | Script.js:120-128 | With exactly two tracked pointers, the pair is the pointer with the smaller id followed by the one with the larger id. Those two ids are all the tracked ids. |
| Gesture.PointerDown | Script.js:101-113 | Records the pointer's position, overwriting any earlier one, and leaves the other pointers alone. Sets `lastTap` to `now` on every down. Resets the camera to zoom 1 and offset (0, 0) exactly when `now - (lastTap or 0) < 300`, whatever the earlier camera was, and keeps it otherwise. Leaves the baseline alone and preserves `Valid`. |
| Gesture.PointerMove | Script.js:114-141 | A move of an untracked id changes nothing. A tracked pointer's new position is stored. With one pointer, the offset changes by exactly the pointer's displacement, unscaled by zoom, and the zoom and baseline are kept. With two pointers, the baseline becomes the current distance and the offset is kept. Without a truthy baseline the camera is unchanged (seeding). With one, the zoom becomes the clamped pinch zoom. With three or more pointers, the camera and baseline are unchanged. Preserves `Valid`. |
| Gesture.PointerUp | Script.js:142-147 | Removes exactly that id and leaves the other pointers' positions unchanged. Clears the baseline when fewer than two pointers remain and keeps it otherwise. Never touches the camera or `lastTap`. Preserves `Valid`. |
| Gesture.Step | Script.js:100-147 | Any event preserves `Valid`. A pointer-down adds its id with the given position and sets `lastTap` to its time; only a pointer-down changes `lastTap`. A pointer-up removes exactly its id and clears the baseline when fewer than two pointers remain. A move of a tracked pointer stores the new position, and with exactly two pointers sets the baseline to their current distance. Only a pointer-move can set a cleared baseline. A move of an untracked pointer is a no-op. |
| Gesture.Run | Script.js:100-147 | Any sequence of events from a valid state ends in a valid state: the zoom stays in [0.1, 3], and a baseline exists only with at least two pointers. |
| GestureProperties.ZoomAlwaysInRange | Script.js:20-137 | The zoom starts at 1 and is in [0.1, 3] after any sequence of pointer events. |
| GestureProperties.NoDownKeepsLastTap | Script.js:105-112 | Moves and releases never change the last-tap time. |
| GestureProperties.DoubleTapResets | Script.js:105-112 | Two pointer-downs less than 300 ms apart reset the camera to zoom 1 and offset (0, 0). This holds from any prior state and with any moves and releases in between. |
| GestureProperties.DragFollowsPointer | Script.js:116-124 | With one tracked pointer, a drag along any path pans by exactly the total displacement from the start to the end of the path. The per-event deltas add up. Zoom, baseline and last tap are unchanged, and the stored position is the path's end. |
| GestureProperties.ClearedBaselineWaitsForPinch | Script.js:129-146 | A cleared baseline stays cleared through any sequence of events without a move of a tracked pointer while exactly two are tracked. Downs, ups, untracked moves, one-finger drags and moves with three or more fingers are all allowed. |
| GestureProperties.FirstPinchAfterReleaseSeeds | Script.js:129-146 | After a release that leaves fewer than two pointers, the first later move of a tracked pointer while exactly two are tracked leaves the camera unchanged and only seeds the baseline with the current distance. It never zooms against a stale distance. Downs, ups, one-finger drags and moves with three or more fingers may come in between. |
| GestureProperties.DragThenPinchSeeds | Script.js:114-146 | Lift a finger so one remains, drag with it, put a second finger down, then move it. The two fingers are tracked, and that move only seeds the baseline, with the camera unchanged. |
| GestureProperties.BaselineOutlivesItsPair | Script.js:130-146 | Two pointers are down with a baseline, a third lands, and one of the first two is lifted. The baseline measured for the old pair is kept. The next move of a remaining finger then scales the zoom by comparing the new pair's distance with that stale baseline. |
| Scene.ViewportCenter | Script.js:153-154 | The centre is half the canvas width and height. |
| Scene.WorldToScreen | Script.js:183 | The camera transform puts the scene origin, the black hole's centre, at the viewport centre plus the pan offset. Its zoom scaling is stated by `Parallax.ZoomScalesScene`. |
| Scene.HorizonRadius | Script.js:186 | The horizon radius `50 + g/2` is positive exactly when the gravity setting is above -100. |
| Scene.RimRadius | Script.js:198 | The rim circle lies strictly outside the horizon. |
| Scene.ArcRadius | Script.js:208 | The accretion arcs lie strictly outside the rim. |
| Scene.RadiiIncrease | Script.js:186-208 | Horizon, rim and arc radii are all strictly increasing in the gravity setting. |
| Scene.StarOnScreen | Script.js:169-170 | With zero zoom a star sits at the centre plus the offset scaled by its depth. With no offset, a star at rest position (0, 0) sits at the centre. Its zoom term, independent of depth, is stated by `Parallax.UnpannedStarFollowsCamera`. |
| Scene.StarRadius | Script.js:171 | A star with positive size and depth has a positive radius under a positive zoom. Its depth factor is stated by `Parallax.StarRadiusScalesWithDepth`. |
| Scene.PanShifts | Script.js:169-183 | Panning by (dx, dy) moves the scene origin by exactly (dx, dy) and a star by (depth·dx, depth·dy). |
| Scene.StarsLagThePan | Script.js:169-170 | A star in the start-up depth range [0.5, 1) is drawn at a position that moves less than a pan of `d > 0` along either axis, but at least `d/2`. |
| Scene.ZoomScalesStars | Script.js:169-171 | Multiplying the zoom by k multiplies each star's distance from its parallax anchor, and its radius, by k. |
| Parallax.DragMovesHoleAndStars | Script.js:116-124 | After a one-finger drag event the black hole is drawn shifted by exactly the finger's displacement. Every star is shifted by that displacement times its depth. |
| Parallax.DoubleTapRecentres | Script.js:106-110 | After a double-tap the black hole is drawn at the canvas centre with zoom 1. |
| Parallax.ZoomScalesScene | Script.js:183 | The transform `setTransform(zoom, 0, 0, zoom, …)` scales the scene by the zoom: two scene points are drawn exactly `zoom` times as far apart, on each axis, as they are in the scene. |
| Parallax.DepthOneStarMovesWithScene | Script.js:169-183 | A star at depth 1 is drawn exactly where the camera transform puts its resting position, so it pans and zooms with the black hole. |
| Parallax.UnpannedStarFollowsCamera | Script.js:169-183 | With no pan offset, a star of any depth is drawn exactly where the camera transform puts its resting position: the zoom scales its position by `zoom`, independently of its depth. |
| Parallax.StarRadiusScalesWithDepth | Script.js:171 | A star's drawn radius is proportional to its depth: scaling the depth by k scales the radius by k. |
| Helix.RungHeight | Script.js:229 | The height `(i/360 - 0.5)*180` equals the closed form `i/2 - 90`. |
| Helix.RungHeightShape | Script.js:229 | Step heights are strictly increasing in the angle, from -90 at 0 degrees to 90 at 360 degrees. |
| Helix.ConnectorIndex | Script.js:249 | Step number k (angle 15·k) is joined exactly when k is a multiple of 4. |
| Helix.ConnectorsOfLayout | Script.js:225-249 | A laid-out run of n steps has exactly ⌈n/4⌉ joined steps. |
| Helix.HelixLayout | Script.js:225-257 | The loop visits 25 steps at angles 0, 15, …, 360. Their heights rise strictly from -90 to 90. The strands are joined at exactly the 7 steps whose angle is a multiple of 60. |

## Left out

- DOM lookup and the slider, toggle and help-panel wiring (Script.js:34-50) are UI glue. The slider's string-to-number coercion is a JavaScript artefact, so the gravity setting is a `real` here.
- Audio playback, its single autoplay retry and the mute button (Script.js:53-74) are I/O with a browser media API.
- Canvas resizing and `requestAnimationFrame` scheduling (Script.js:6-11, 272-274) are host plumbing. The canvas size is a parameter of `Scene.ViewportCenter`.
- All drawing calls are left out because they are foreign rendering APIs with no checkable result. This covers gradients, arcs, `rotate`/`scale`, and the text labels and their positions (Script.js:262-268). The `setTransform` call itself is left out too, but the affine map it installs (Script.js:183) is modelled as `Scene.WorldToScreen`.
- The star flicker `0.7 + 0.3*sin(phase)` and the helix strands' `cos`/`sin` x-positions and perspective scale (Script.js:156-161, 226-232) are left out because they are transcendental floating point. The counters `star.phase`, `accAngle` and `dnaRotation` (Script.js:157-161) are plain additions, but they are left out too because they only feed `rotate`, `sin` and `cos`.
- The random star initialisation (Script.js:78-93) is nondeterministic. Only its size and depth ranges are kept, as `Scene.Seeded`.
- `setPointerCapture` (Script.js:102) is left out because it has no effect on the tracker state.
- `Date.now()` and `Math.hypot` are external. They are event fields and a function parameter respectively.
- NaN, infinities and double rounding are not modelled, because reals idealise doubles. For example, with a NaN finger distance both clamps at Script.js:136-137 compare false, so the script's zoom stays NaN; here every distance is a real number and the zoom always lands in [0.1, 3].

=== FILE: camera.dfy ===
/**
 The camera of the black-hole scene: a uniform zoom and a screen-space pan
 offset, written by the gesture handlers and read by every frame.

 Coordinates, offsets and the zoom factor are Dafny `real`s. This idealises
 JavaScript doubles: there is no rounding, no NaN and no infinity here.
 */
module Camera {

  /** The zoom the pinch gesture may never leave. */
  const MinZoom: real := 0.1
  const MaxZoom: real := 3.0

  /** A change of this many pixels in finger distance doubles (or cancels) the zoom. */
  const PinchSensitivity: real := 200.0

  /** A screen position, in CSS pixels. */
  datatype Point = Point(x: real, y: real)

  /** Zoom and pan offset of the camera. */
  datatype View = View(zoom: real, offsetX: real, offsetY: real)

  /** The view at start-up, and the one a double-tap restores. */
  const Home: View := View(1.0, 0.0, 0.0)

  predicate ZoomInRange(v: View)
  {
    MinZoom <= v.zoom <= MaxZoom
  }

  /** The two guards that follow the zoom multiplication: first lift a zoom
      below the minimum, then cut one above the maximum. */
  function ClampZoom(z: real): (r: real)
    ensures MinZoom <= r <= MaxZoom
    ensures r == z <==> MinZoom <= z <= MaxZoom
    ensures z <= MinZoom ==> r == MinZoom
    ensures z >= MaxZoom ==> r == MaxZoom
  {
    var lifted := if z < MinZoom then MinZoom else z;
    if lifted > MaxZoom then MaxZoom else lifted
  }

  /** The factor a pinch multiplies the zoom by when the finger distance
      goes from `d0` to `d1`. */
  function PinchFactor(d0: real, d1: real): (f: real)
    ensures f > 1.0 <==> d1 > d0
    ensures f < 1.0 <==> d1 < d0
    ensures f <= 0.0 <==> d1 - d0 <= -PinchSensitivity
  {
    1.0 + (d1 - d0) / PinchSensitivity
  }

  /** The zoom after one pinch step: scaled by the pinch factor, kept as is
      when that lands in range, and otherwise moved to the nearer bound.
      A factor that is zero or negative lands on the minimum. */
  function PinchZoom(zoom: real, d0: real, d1: real): (r: real)
    ensures MinZoom <= r <= MaxZoom
    ensures MinZoom <= zoom * PinchFactor(d0, d1) <= MaxZoom ==> r == zoom * PinchFactor(d0, d1)
    ensures zoom * PinchFactor(d0, d1) < MinZoom ==> r == MinZoom
    ensures zoom * PinchFactor(d0, d1) > MaxZoom ==> r == MaxZoom
    ensures MinZoom <= zoom <= MaxZoom && d0 == d1 ==> r == zoom
    ensures zoom > 0.0 && d1 - d0 <= -PinchSensitivity ==> r == MinZoom
  {
    var f := PinchFactor(d0, d1);
    assert zoom > 0.0 && f <= 0.0 ==> zoom * f <= 0.0 by {
      if zoom > 0.0 && f <= 0.0 {
        assert zoom * (0.0 - f) >= 0.0;
      }
    }
    ClampZoom(zoom * f)
  }

  /** Spreading the fingers never zooms out and closing them never zooms in. */
  lemma PinchDirection(zoom: real, d0: real, d1: real)
    requires MinZoom <= zoom <= MaxZoom
    ensures d0 <= d1 ==> zoom <= PinchZoom(zoom, d0, d1)
    ensures d1 <= d0 ==> PinchZoom(zoom, d0, d1) <= zoom
  {
    var f := PinchFactor(d0, d1);
    if d0 <= d1 {
      assert zoom * f - zoom == zoom * (f - 1.0);
      ProductSign(zoom, f - 1.0);
    }
    if d1 <= d0 {
      assert zoom - zoom * f == zoom * (1.0 - f);
      ProductSign(zoom, 1.0 - f);
    }
  }

  /** The sign rules for a product, kept apart so the solver sees them alone. */
  lemma ProductSign(a: real, b: real)
    ensures a >= 0.0 && b >= 0.0 ==> a * b >= 0.0
    ensures a > 0.0 && b > 0.0 ==> a * b > 0.0
  {
  }
}

=== FILE: gesture.dfy ===
/**
 The gesture tracker: the pointer-down, pointer-move and pointer-up handlers
 of the drawing surface, each as a pure step from one tracker state to the next.

 The host's clock is the `now` field of a pointer-down, and the host's
 `Math.hypot` is the parameter `hypot` of every step that can pinch.
 */
module Gesture {
  import opened Camera

  datatype Option<T> = None | Some(value: T)

  /** Everything the handlers read and write: the tracked pointers by id with
      their last position, the camera, the pinch baseline distance and the
      time of the last pointer-down. The last two start out unset. */
  datatype State = State(
    pointers: map<nat, Point>,
    view: View,
    startDist: Option<real>,
    lastTap: Option<int>)

  /** A raw pointer event. Pointer ids are non-negative integers, the form
      browsers hand out; `now` is the clock in milliseconds. */
  datatype Event =
    | Down(id: nat, at: Point, now: int)
    | Move(id: nat, at: Point)
    | Up(id: nat)

  /** Two pointer-downs less than this many milliseconds apart are a double-tap. */
  const DoubleTapMillis: int := 300

  const Initial: State := State(map[], Home, None, None)

  /** The time of the last pointer-down, with an unset time read as 0. */
  function LastTapOrZero(s: State): (t: int)
    ensures s.lastTap.Some? ==> t == s.lastTap.value
    ensures t == 0 <==> s.lastTap == None || s.lastTap == Some(0)
  {
    match s.lastTap
    case None => 0
    case Some(t) => t
  }

  predicate IsDoubleTap(s: State, now: int)
  {
    now - LastTapOrZero(s) < DoubleTapMillis
  }

  /** Whether a baseline is present in the JavaScript sense: an unset baseline
      and a baseline of 0 both count as absent. */
  function HasBaseline(d: Option<real>): (present: bool)
    ensures !present <==> d == None || d == Some(0.0)
  {
    d.Some? && d.value != 0.0
  }

  /** What every reachable state satisfies: the zoom is in range, and a pinch
      baseline exists only while at least two pointers are tracked. */
  predicate Valid(s: State)
  {
    && ZoomInRange(s.view)
    && (s.startDist.Some? ==> |s.pointers| >= 2)
  }

  /** A set of exactly two ids is a pair `{a, b}` with `a < b`. */
  lemma TwoKeys(ks: set<nat>) returns (a: nat, b: nat)
    requires |ks| == 2
    ensures a < b && ks == {a, b}
  {
    var x :| x in ks;
    var rest := ks - {x};
    assert |rest| == 1;
    var y :| y in rest;
    assert rest - {y} == {} by {
      assert |rest - {y}| == 0;
    }
    assert ks == {x, y};
    if x < y {
      a, b := x, y;
    } else {
      a, b := y, x;
    }
  }

  /** A set of exactly two ids has a least and a greatest element. */
  lemma TwoKeysBounded(ks: set<nat>)
    requires |ks| == 2
    ensures exists lo :: lo in ks && forall k | k in ks :: lo <= k
    ensures exists hi :: hi in ks && forall k | k in ks :: k <= hi
  {
    var a, b := TwoKeys(ks);
    assert a in ks && forall k | k in ks :: a <= k;
    assert b in ks && forall k | k in ks :: k <= b;
  }

  /** The smaller of the two tracked ids. */
  function LowKey(m: map<nat, Point>): (lo: nat)
    requires |m| == 2
    ensures lo in m && forall k | k in m :: lo <= k
  {
    TwoKeysBounded(m.Keys);
    var lo :| lo in m && forall k | k in m :: lo <= k;
    lo
  }

  /** The larger of the two tracked ids. */
  function HighKey(m: map<nat, Point>): (hi: nat)
    requires |m| == 2
    ensures hi in m && forall k | k in m :: k <= hi
  {
    TwoKeysBounded(m.Keys);
    var hi :| hi in m && forall k | k in m :: k <= hi;
    hi
  }

  /** The two tracked ids are exactly the low and the high one, and they differ. */
  lemma LowAndHighKeys(m: map<nat, Point>)
    requires |m| == 2
    ensures LowKey(m) < HighKey(m) && m.Keys == {LowKey(m), HighKey(m)}
  {
    var a, b := TwoKeys(m.Keys);
  }

  /** The two tracked pointers in the order JavaScript lists an object's
      integer keys: the smaller id first. */
  function PinchPair(m: map<nat, Point>): (pair: (Point, Point))
    requires |m| == 2
    ensures exists a, b :: a < b && m.Keys == {a, b} && pair == (m[a], m[b])
  {
    LowAndHighKeys(m);
    (m[LowKey(m)], m[HighKey(m)])
  }

  /** The current finger distance: `hypot` of the second pointer's position
      relative to the first. */
  function PinchDistance(m: map<nat, Point>, hypot: (real, real) -> real): (d: real)
    requires |m| == 2
    ensures exists a, b :: a < b && m.Keys == {a, b} && d == hypot(m[b].x - m[a].x, m[b].y - m[a].y)
  {
    var (p1, p2) := PinchPair(m);
    hypot(p2.x - p1.x, p2.y - p1.y)
  }

  /** Pointer-down: record the pointer, reset the camera on a double-tap, and
      remember the time of this tap whether it reset or not. */
  function PointerDown(s: State, id: nat, at: Point, now: int): (t: State)
    ensures t.pointers.Keys == s.pointers.Keys + {id} && t.pointers[id] == at
    ensures forall k :: k in s.pointers && k != id ==> t.pointers[k] == s.pointers[k]
    ensures t.lastTap == Some(now)
    ensures t.startDist == s.startDist
    ensures now - LastTapOrZero(s) < DoubleTapMillis ==> t.view == Home
    ensures now - LastTapOrZero(s) >= DoubleTapMillis ==> t.view == s.view
    ensures Valid(s) ==> Valid(t)
  {
    var pointers := s.pointers[id := at];
    var view := if IsDoubleTap(s, now) then Home else s.view;
    State(pointers, view, s.startDist, Some(now))
  }

  /** Pointer-move: for a tracked pointer, record the new position, then pan
      with one pointer, pinch with two, and do nothing more with three or more.
      A move of an untracked pointer is ignored. */
  function PointerMove(s: State, id: nat, at: Point, hypot: (real, real) -> real): (t: State)
    // an untracked pointer changes nothing
    ensures id !in s.pointers ==> t == s
    // a tracked pointer's new position is stored; nothing else about pointers or taps changes
    ensures id in s.pointers ==> t.pointers == s.pointers[id := at] && t.lastTap == s.lastTap
    // one pointer: the offset follows the pointer's displacement exactly, unscaled by zoom
    ensures id in s.pointers && |s.pointers| == 1 ==>
      && t.view.zoom == s.view.zoom
      && t.view.offsetX - s.view.offsetX == at.x - s.pointers[id].x
      && t.view.offsetY - s.view.offsetY == at.y - s.pointers[id].y
      && t.startDist == s.startDist
    // two pointers: the baseline becomes the current distance and the offset stays
    ensures id in s.pointers && |s.pointers| == 2 ==>
      && t.startDist == Some(PinchDistance(t.pointers, hypot))
      && t.view.offsetX == s.view.offsetX
      && t.view.offsetY == s.view.offsetY
    // ... without a baseline, that is all: the first pinch event only seeds it
    ensures id in s.pointers && |s.pointers| == 2 && !HasBaseline(s.startDist) ==>
      t.view == s.view
    // ... with a baseline, the zoom is scaled by the distance change and clamped
    ensures id in s.pointers && |s.pointers| == 2 && HasBaseline(s.startDist) ==>
      t.view.zoom == PinchZoom(s.view.zoom, s.startDist.value, PinchDistance(t.pointers, hypot))
    // three or more pointers: only the position changes
    ensures id in s.pointers && |s.pointers| >= 3 ==>
      t.view == s.view && t.startDist == s.startDist
    ensures Valid(s) ==> Valid(t)
  {
    if id !in s.pointers then s
    else
      var start := s.pointers[id];
      var dx := at.x - start.x;
      var dy := at.y - start.y;
      var pointers := s.pointers[id := at];
      if |pointers| == 1 then
        var view := s.view.(offsetX := s.view.offsetX + dx, offsetY := s.view.offsetY + dy);
        s.(pointers := pointers, view := view)
      else if |pointers| == 2 then
        var curDist := PinchDistance(pointers, hypot);
        if !HasBaseline(s.startDist) then
          s.(pointers := pointers, startDist := Some(curDist))
        else
          var zoom := PinchZoom(s.view.zoom, s.startDist.value, curDist);
          s.(pointers := pointers, view := s.view.(zoom := zoom), startDist := Some(curDist))
      else
        s.(pointers := pointers)
  }

  /** Pointer-up: forget the pointer; once fewer than two remain, drop the
      pinch baseline. */
  function PointerUp(s: State, id: nat): (t: State)
    ensures t.pointers.Keys == s.pointers.Keys - {id}
    ensures forall k :: k in t.pointers ==> t.pointers[k] == s.pointers[k]
    ensures t.view == s.view && t.lastTap == s.lastTap
    ensures |t.pointers| < 2 ==> t.startDist == None
    ensures |t.pointers| >= 2 ==> t.startDist == s.startDist
    ensures Valid(s) ==> Valid(t)
  {
    var pointers := s.pointers - {id};
    if |pointers| < 2 then
      s.(pointers := pointers, startDist := None)
    else
      s.(pointers := pointers)
  }

  /** One event, dispatched to its handler. */
  function Step(s: State, e: Event, hypot: (real, real) -> real): (t: State)
    ensures Valid(s) ==> Valid(t)
    ensures !e.Down? ==> t.lastTap == s.lastTap
    ensures !e.Move? && s.startDist == None ==> t.startDist == None
    ensures e.Move? && e.id !in s.pointers ==> t == s
    ensures e.Down? ==>
      && t.pointers.Keys == s.pointers.Keys + {e.id}
      && t.pointers[e.id] == e.at
      && t.lastTap == Some(e.now)
    ensures e.Up? ==>
      && t.pointers.Keys == s.pointers.Keys - {e.id}
      && (|t.pointers| < 2 ==> t.startDist == None)
    ensures e.Move? && e.id in s.pointers ==> t.pointers == s.pointers[e.id := e.at]
    ensures e.Move? && e.id in s.pointers && |s.pointers| == 2 ==>
      t.startDist == Some(PinchDistance(t.pointers, hypot))
  {
    match e
    case Down(id, at, now) => PointerDown(s, id, at, now)
    case Move(id, at) => PointerMove(s, id, at, hypot)
    case Up(id) => PointerUp(s, id)
  }

  /** A sequence of events, handled in order. */
  function Run(s: State, es: seq<Event>, hypot: (real, real) -> real): (r: State)
    ensures Valid(s) ==> Valid(r)
    decreases |es|
  {
    if es == [] then s else Run(Step(s, es[0], hypot), es[1..], hypot)
  }
}

=== FILE: gesture_properties.dfy ===
/**
 Properties of the gesture tracker that span several events: the zoom range
 over whole event sequences, drags that follow the pointer, double-taps
 separated by moves and releases, and the pinch baseline after a release.
 */
module GestureProperties {
  import opened Camera
  import opened Gesture

  /** Handling `a` and then `b` is handling `a + b`. */
  lemma {:induction false} RunAppend(s: State, a: seq<Event>, b: seq<Event>, hypot: (real, real) -> real)
    ensures Run(s, a + b, hypot) == Run(Run(s, a, hypot), b, hypot)
    decreases |a|
  {
    if a == [] {
      assert a + b == b;
    } else {
      assert (a + b)[0] == a[0];
      assert (a + b)[1..] == a[1..] + b;
      RunAppend(Step(s, a[0], hypot), a[1..], b, hypot);
    }
  }

  /** From start-up, the zoom stays within its range whatever events arrive. */
  lemma ZoomAlwaysInRange(es: seq<Event>, hypot: (real, real) -> real)
    ensures Initial.view.zoom == 1.0
    ensures MinZoom <= Run(Initial, es, hypot).view.zoom <= MaxZoom
  {
  }

  predicate NoDown(es: seq<Event>)
  {
    forall k :: 0 <= k < |es| ==> !es[k].Down?
  }

  /** Only a pointer-down touches the last-tap time. */
  lemma {:induction false} NoDownKeepsLastTap(s: State, es: seq<Event>, hypot: (real, real) -> real)
    requires NoDown(es)
    ensures Run(s, es, hypot).lastTap == s.lastTap
    decreases |es|
  {
    if es != [] {
      assert !es[0].Down?;
      NoDownKeepsLastTap(Step(s, es[0], hypot), es[1..], hypot);
    }
  }

  /** Two pointer-downs less than 300 ms apart reset the camera, whatever the
      state before them and whatever moves and releases come in between. */
  lemma DoubleTapResets(
    s: State, first: Event, between: seq<Event>, second: Event, hypot: (real, real) -> real)
    requires first.Down? && second.Down? && NoDown(between)
    requires second.now - first.now < DoubleTapMillis
    ensures Run(s, [first] + between + [second], hypot).view == Home
  {
    var afterFirst := Run(s, [first], hypot);
    RunAppend(s, [first], between, hypot);
    RunAppend(s, [first] + between, [second], hypot);
    NoDownKeepsLastTap(afterFirst, between, hypot);
  }

  /** The move events of one pointer travelling along `path`. */
  function Moves(id: nat, path: seq<Point>): (es: seq<Event>)
    ensures |es| == |path|
    ensures forall k :: 0 <= k < |path| ==> es[k] == Move(id, path[k])
  {
    seq(|path|, k requires 0 <= k < |path| => Move(id, path[k]))
  }

  /** A one-finger drag along a path pans the camera by exactly the finger's
      total displacement: the per-event deltas add up, unscaled by zoom. */
  lemma {:induction false} DragFollowsPointer(
    s: State, id: nat, path: seq<Point>, hypot: (real, real) -> real)
    requires s.pointers.Keys == {id}
    requires |path| > 0
    ensures var r := Run(s, Moves(id, path), hypot);
      && r.pointers == map[id := path[|path| - 1]]
      && r.view.zoom == s.view.zoom
      && r.view.offsetX == s.view.offsetX + (path[|path| - 1].x - s.pointers[id].x)
      && r.view.offsetY == s.view.offsetY + (path[|path| - 1].y - s.pointers[id].y)
      && r.startDist == s.startDist
      && r.lastTap == s.lastTap
    decreases |path|
  {
    var es := Moves(id, path);
    var t := Step(s, es[0], hypot);
    assert |s.pointers| == 1 by {
      assert |s.pointers.Keys| == 1;
    }
    assert t.pointers == map[id := path[0]];
    if |path| == 1 {
      assert es[1..] == [];
    } else {
      assert es[1..] == Moves(id, path[1..]);
      DragFollowsPointer(t, id, path[1..], hypot);
    }
  }

  /** No event of `es`, handled from `s`, is a move of a tracked pointer
      while exactly two pointers are tracked. Moves of untracked pointers and
      moves with one or with three or more pointers are allowed. */
  predicate NoPinchMove(s: State, es: seq<Event>, hypot: (real, real) -> real)
    decreases |es|
  {
    || es == []
    || (&& !(es[0].Move? && es[0].id in s.pointers && |s.pointers| == 2)
        && NoPinchMove(Step(s, es[0], hypot), es[1..], hypot))
  }

  /** A cleared pinch baseline stays cleared until a tracked pointer moves
      while exactly two are tracked. */
  lemma {:induction false} ClearedBaselineWaitsForPinch(
    s: State, es: seq<Event>, hypot: (real, real) -> real)
    requires s.startDist == None && NoPinchMove(s, es, hypot)
    ensures Run(s, es, hypot).startDist == None
    decreases |es|
  {
    if es != [] {
      var t := Step(s, es[0], hypot);
      assert t.startDist == None;
      ClearedBaselineWaitsForPinch(t, es[1..], hypot);
    }
  }

  /** After a release leaves fewer than two pointers, the first later move of
      a tracked pointer while two are tracked only seeds a fresh baseline: the
      zoom does not jump against a stale distance. Downs, ups, one-finger
      drags and moves with three or more fingers may come in between. */
  lemma FirstPinchAfterReleaseSeeds(
    s: State, released: nat, es: seq<Event>, mover: nat, at: Point, hypot: (real, real) -> real)
    requires |PointerUp(s, released).pointers| < 2
    requires NoPinchMove(PointerUp(s, released), es, hypot)
    ensures var m := Run(PointerUp(s, released), es, hypot);
      var n := PointerMove(m, mover, at, hypot);
      mover in m.pointers && |m.pointers| == 2 ==>
        && n.view == m.view
        && n.startDist == Some(PinchDistance(n.pointers, hypot))
  {
    ClearedBaselineWaitsForPinch(PointerUp(s, released), es, hypot);
  }

  /** The usual sequence: lift a finger, drag with the one left, put a second
      finger down, and pinch. The pinch only seeds the baseline. */
  lemma DragThenPinchSeeds(
    s: State, released: nat, kept: nat, dragTo: Point,
    second: nat, at: Point, now: int, pinchTo: Point, hypot: (real, real) -> real)
    requires PointerUp(s, released).pointers.Keys == {kept}
    requires second != kept
    ensures var m := Run(PointerUp(s, released), [Move(kept, dragTo), Down(second, at, now)], hypot);
      var n := PointerMove(m, second, pinchTo, hypot);
      && m.pointers.Keys == {kept, second}
      && n.view == m.view
      && n.startDist == Some(PinchDistance(n.pointers, hypot))
  {
    var u := PointerUp(s, released);
    var es := [Move(kept, dragTo), Down(second, at, now)];
    assert |u.pointers| == 1 by {
      assert |u.pointers.Keys| == 1;
    }
    var t1 := Step(u, es[0], hypot);
    var t2 := Step(t1, es[1], hypot);
    assert t1.pointers.Keys == {kept};
    assert t2.pointers.Keys == {kept, second};
    assert |t2.pointers| == 2 by {
      assert |t2.pointers.Keys| == 2;
    }
    assert es[1..][1..] == [];
    assert NoPinchMove(t2, es[1..][1..], hypot);
    assert NoPinchMove(t1, es[1..], hypot);
    assert NoPinchMove(u, es, hypot);
    assert Run(u, es, hypot) == t2 by {
      assert Run(t2, es[1..][1..], hypot) == t2;
    }
    FirstPinchAfterReleaseSeeds(s, released, es, second, pinchTo, hypot);
  }

  /** Lifting one of three fingers keeps the baseline, even though it was
      measured against a finger that has gone: the next move of a remaining
      finger zooms by comparing the new pair's distance with that old one. */
  lemma BaselineOutlivesItsPair(
    s: State, a: nat, b: nat, c: nat, at: Point, now: int, moveTo: Point, hypot: (real, real) -> real)
    requires s.pointers.Keys == {a, b} && a != b && c != a && c != b
    requires HasBaseline(s.startDist)
    ensures var t := PointerUp(PointerDown(s, c, at, now), a);
      var n := PointerMove(t, b, moveTo, hypot);
      && t.pointers.Keys == {b, c}
      && t.startDist == s.startDist
      && n.view.zoom == PinchZoom(t.view.zoom, s.startDist.value, PinchDistance(n.pointers, hypot))
  {
    var t := PointerUp(PointerDown(s, c, at, now), a);
    assert t.pointers.Keys == {b, c};
    assert |t.pointers| == 2 by {
      assert |t.pointers.Keys| == 2;
    }
  }
}

=== FILE: helix.dfy ===
/**
 The step layout of the decorative double helix: which angle steps are
 drawn, at what height, and which of them get a connecting rung. The strand
 x-positions use cosine and sine and are not modelled.
 */
module Helix {

  /** The loop runs its angle from 0 to this many degrees, inclusive ... */
  const LastAngle: int := 360
  /** ... in increments of this many degrees ... */
  const AngleStep: int := 15
  /** ... and joins the strands at every multiple of this many degrees. */
  const ConnectorEvery: int := 60
  /** The helix spans this many pixels vertically. */
  const Height: real := 180.0

  /** One step of the helix: its angle in degrees, its height, and whether
      the two strands are joined there. */
  datatype Rung = Rung(angle: int, y: real, connector: bool)

  /** Height of the step at `angle` degrees. */
  function RungHeight(angle: int): (y: real)
    ensures y == angle as real / 2.0 - 90.0
  {
    (angle as real / LastAngle as real - 0.5) * Height
  }

  /** The height is linear in the angle, centred on the middle step. */
  lemma RungHeightShape(a: int, b: int)
    ensures RungHeight(0) == -Height / 2.0 && RungHeight(LastAngle) == Height / 2.0
    ensures a < b ==> RungHeight(a) < RungHeight(b)
  {
  }

  /** A step is joined exactly when its index is a multiple of four. */
  lemma ConnectorIndex(k: int)
    requires k >= 0
    ensures (AngleStep * k) % ConnectorEvery == 0 <==> k % 4 == 0
  {
  }

  /** Number of joined steps. */
  function Connectors(rungs: seq<Rung>): nat
  {
    if rungs == [] then 0
    else Connectors(rungs[..|rungs| - 1]) + (if rungs[|rungs| - 1].connector then 1 else 0)
  }

  /** Every rung sits at the angle, height and connector flag of its step index. */
  ghost predicate LaidOut(rungs: seq<Rung>)
  {
    forall k :: 0 <= k < |rungs| ==>
      rungs[k] == Rung(AngleStep * k, RungHeight(AngleStep * k), (AngleStep * k) % ConnectorEvery == 0)
  }

  /** A laid-out prefix is joined once every four steps, starting with the first. */
  lemma {:induction false} ConnectorsOfLayout(rungs: seq<Rung>)
    requires LaidOut(rungs)
    ensures Connectors(rungs) == (|rungs| + 3) / 4
    decreases |rungs|
  {
    if rungs != [] {
      var n := |rungs|;
      var prefix := rungs[..n - 1];
      assert LaidOut(prefix) by {
        forall k | 0 <= k < |prefix|
          ensures prefix[k] == Rung(AngleStep * k, RungHeight(AngleStep * k), (AngleStep * k) % ConnectorEvery == 0)
        {
          assert prefix[k] == rungs[k];
        }
      }
      ConnectorsOfLayout(prefix);
      ConnectorIndex(n - 1);
      assert rungs[n - 1].connector <==> (n - 1) % 4 == 0;
    }
  }

  /** The helix loop: angles 0, 15, ..., 360, each at its height, joined at
      multiples of 60 degrees. It visits 25 steps, rising strictly from -90 to
      90, and joins the strands at exactly 7 of them. */
  method HelixLayout() returns (rungs: seq<Rung>)
    ensures |rungs| == 25
    ensures forall k :: 0 <= k < |rungs| ==> rungs[k].angle == AngleStep * k
    ensures forall k :: 0 <= k < |rungs| ==> rungs[k].y == RungHeight(rungs[k].angle)
    ensures forall k :: 0 <= k < |rungs| ==> (rungs[k].connector <==> k % 4 == 0)
    ensures rungs[0].y == -90.0 && rungs[|rungs| - 1].y == 90.0
    ensures forall j, k :: 0 <= j < k < |rungs| ==> rungs[j].y < rungs[k].y
    ensures Connectors(rungs) == 7
  {
    rungs := [];
    var angle := 0;
    while angle <= LastAngle
      invariant 0 <= angle <= LastAngle + AngleStep
      invariant angle == AngleStep * |rungs|
      invariant LaidOut(rungs)
    {
      rungs := rungs + [Rung(angle, RungHeight(angle), angle % ConnectorEvery == 0)];
      angle := angle + AngleStep;
    }
    ConnectorsOfLayout(rungs);
    forall k | 0 <= k < |rungs|
      ensures rungs[k].connector <==> k % 4 == 0
    {
      ConnectorIndex(k);
    }
  }
}

=== FILE: parallax.dfy ===
/**
 What the gestures do to the picture: how a drag and a double-tap move the
 black hole and the stars on screen in the next frame.
 */
module Parallax {
  import opened Camera
  import opened Gesture
  import opened Scene

  /** After a one-finger drag event the black hole is drawn shifted by exactly
      the finger's displacement, while every star shifts by that displacement
      scaled by its depth, so the starfield trails the foreground. */
  lemma DragMovesHoleAndStars(
    s: State, id: nat, at: Point, hypot: (real, real) -> real, center: Point, star: Star)
    requires s.pointers.Keys == {id}
    ensures var t := PointerMove(s, id, at, hypot);
      var dx := at.x - s.pointers[id].x;
      var dy := at.y - s.pointers[id].y;
      var origin := Point(0.0, 0.0);
      && WorldToScreen(center, t.view, origin).x == WorldToScreen(center, s.view, origin).x + dx
      && WorldToScreen(center, t.view, origin).y == WorldToScreen(center, s.view, origin).y + dy
      && StarOnScreen(center, t.view, star).x == StarOnScreen(center, s.view, star).x + star.depth * dx
      && StarOnScreen(center, t.view, star).y == StarOnScreen(center, s.view, star).y + star.depth * dy
  {
  }

  /** After a double-tap the black hole is back at the centre of the canvas,
      drawn at its natural size. */
  lemma DoubleTapRecentres(s: State, id: nat, at: Point, now: int, width: real, height: real)
    requires IsDoubleTap(s, now)
    ensures var t := PointerDown(s, id, at, now);
      var center := ViewportCenter(width, height);
      && WorldToScreen(center, t.view, Point(0.0, 0.0)) == center
      && t.view.zoom == 1.0
  {
  }

  /** The camera transform scales the whole scene by the zoom: two scene
      points are drawn `zoom` times as far apart as they are in the scene. */
  lemma ZoomScalesScene(center: Point, v: View, p: Point, q: Point)
    ensures WorldToScreen(center, v, p).x - WorldToScreen(center, v, q).x == v.zoom * (p.x - q.x)
    ensures WorldToScreen(center, v, p).y - WorldToScreen(center, v, q).y == v.zoom * (p.y - q.y)
  {
  }

  /** A star at depth 1 is drawn exactly where the camera transform puts its
      resting position: it moves with the black hole under pan and zoom. */
  lemma DepthOneStarMovesWithScene(center: Point, v: View, s: Star)
    requires s.depth == 1.0
    ensures StarOnScreen(center, v, s) == WorldToScreen(center, v, Point(s.x, s.y))
  {
    var q, w := StarOnScreen(center, v, s), WorldToScreen(center, v, Point(s.x, s.y));
    assert q.x == w.x by {
      assert v.offsetX * s.depth == v.offsetX;
      assert s.x * v.zoom == v.zoom * s.x;
    }
    assert q.y == w.y by {
      assert v.offsetY * s.depth == v.offsetY;
      assert s.y * v.zoom == v.zoom * s.y;
    }
  }

  /** Without a pan, every star, whatever its depth, is drawn where the camera
      transform puts its resting position: the zoom scales a star's position
      exactly as it scales the black hole, and depth plays no part in it. */
  lemma UnpannedStarFollowsCamera(center: Point, v: View, s: Star)
    requires v.offsetX == 0.0 && v.offsetY == 0.0
    ensures StarOnScreen(center, v, s) == WorldToScreen(center, v, Point(s.x, s.y))
  {
    var q, w := StarOnScreen(center, v, s), WorldToScreen(center, v, Point(s.x, s.y));
    assert q.x == w.x by {
      assert q.x == center.x + v.offsetX * s.depth + s.x * v.zoom;
      assert w.x == v.zoom * s.x + center.x + v.offsetX;
      assert v.offsetX * s.depth == 0.0;
      assert s.x * v.zoom == v.zoom * s.x;
    }
    assert q.y == w.y by {
      assert q.y == center.y + v.offsetY * s.depth + s.y * v.zoom;
      assert w.y == v.zoom * s.y + center.y + v.offsetY;
      assert v.offsetY * s.depth == 0.0;
      assert s.y * v.zoom == v.zoom * s.y;
    }
  }

  /** A star's radius is proportional to its depth: scaling the depth by `k`
      scales the drawn radius by `k`. */
  lemma StarRadiusScalesWithDepth(v: View, s: Star, k: real)
    ensures StarRadius(v, s.(depth := k * s.depth)) == k * StarRadius(v, s)
  {
    assert s.size * (k * s.depth) == k * (s.size * s.depth);
  }
}

=== FILE: scene.dfy ===
/**
 The linear geometry of one animation frame: the viewport centre, the
 camera transform, the event-horizon radii and the parallax projection of
 the starfield. Colours, gradients, flicker and the drawing calls
 themselves are not modelled.
 */
module Scene {
  import opened Camera

  /** The middle of a canvas of the given size. */
  function ViewportCenter(width: real, height: real): (c: Point)
    ensures c.x + c.x == width && c.y + c.y == height
  {
    Point(width / 2.0, height / 2.0)
  }

  /** The camera transform of a frame: scale by the zoom, then translate by
      the viewport centre plus the pan offset. */
  function WorldToScreen(center: Point, v: View, p: Point): (q: Point)
    ensures p == Point(0.0, 0.0) ==> q == Point(center.x + v.offsetX, center.y + v.offsetY)
  {
    Point(v.zoom * p.x + center.x + v.offsetX, v.zoom * p.y + center.y + v.offsetY)
  }

  /** Radius of the event-horizon disc for a gravity setting. The gravity is
      not range-checked, so the radius is positive only above -100. */
  function HorizonRadius(gravity: real): (r: real)
    ensures r > 0.0 <==> gravity > -100.0
  {
    50.0 + gravity / 2.0
  }

  /** Radius of the faint rim circle, just outside the horizon. */
  function RimRadius(gravity: real): (r: real)
    ensures r > HorizonRadius(gravity)
  {
    HorizonRadius(gravity) + 5.0
  }

  /** Radius of the two accretion half-arcs, outside the rim. */
  function ArcRadius(gravity: real): (r: real)
    ensures r > RimRadius(gravity)
  {
    HorizonRadius(gravity) + 15.0
  }

  /** More gravity draws a strictly bigger horizon, rim and accretion arc. */
  lemma RadiiIncrease(g1: real, g2: real)
    requires g1 < g2
    ensures HorizonRadius(g1) < HorizonRadius(g2)
    ensures RimRadius(g1) < RimRadius(g2)
    ensures ArcRadius(g1) < ArcRadius(g2)
  {
  }

  /** A background star: its resting position relative to the viewport
      centre, its size and its depth. */
  datatype Star = Star(x: real, y: real, size: real, depth: real)

  /** The ranges the starfield is drawn from at start-up. */
  predicate Seeded(s: Star)
  {
    1.0 <= s.size < 3.0 && 0.5 <= s.depth < 1.0
  }

  /** Where a star is drawn: the pan offset counts only in proportion to the
      star's depth, the zoom scales its resting position. */
  function StarOnScreen(center: Point, v: View, s: Star): (q: Point)
    ensures v.zoom == 0.0 ==>
      q == Point(center.x + v.offsetX * s.depth, center.y + v.offsetY * s.depth)
    ensures v.offsetX == 0.0 && v.offsetY == 0.0 && s.x == 0.0 && s.y == 0.0 ==> q == center
  {
    Point(center.x + v.offsetX * s.depth + s.x * v.zoom,
          center.y + v.offsetY * s.depth + s.y * v.zoom)
  }

  /** The radius a star is drawn with. */
  function StarRadius(v: View, s: Star): (r: real)
    ensures v.zoom > 0.0 && s.size > 0.0 && s.depth > 0.0 ==> r > 0.0
  {
    assert v.zoom > 0.0 && s.size > 0.0 && s.depth > 0.0 ==> s.size * s.depth > 0.0;
    s.size * s.depth * v.zoom
  }

  /** Panning the camera by `(dx, dy)` moves the scene's origin by exactly
      that much and a star by the same amount scaled by its depth. */
  lemma PanShifts(center: Point, v: View, dx: real, dy: real, s: Star, p: Point)
    ensures var w := v.(offsetX := v.offsetX + dx, offsetY := v.offsetY + dy);
      && WorldToScreen(center, w, p).x == WorldToScreen(center, v, p).x + dx
      && WorldToScreen(center, w, p).y == WorldToScreen(center, v, p).y + dy
      && StarOnScreen(center, w, s).x == StarOnScreen(center, v, s).x + s.depth * dx
      && StarOnScreen(center, w, s).y == StarOnScreen(center, v, s).y + s.depth * dy
  {
  }

  /** A seeded star lags behind a pan: panning by `d > 0` along either axis
      moves it on screen less than `d`, but at least half of it. */
  lemma StarsLagThePan(center: Point, v: View, d: real, s: Star)
    requires Seeded(s) && d > 0.0
    ensures var w := v.(offsetX := v.offsetX + d);
      d / 2.0 <= StarOnScreen(center, w, s).x - StarOnScreen(center, v, s).x < d
    ensures var w := v.(offsetY := v.offsetY + d);
      d / 2.0 <= StarOnScreen(center, w, s).y - StarOnScreen(center, v, s).y < d
  {
    PanShifts(center, v, d, 0.0, s, Point(0.0, 0.0));
    PanShifts(center, v, 0.0, d, s, Point(0.0, 0.0));
    assert s.depth * d - d / 2.0 == (s.depth - 0.5) * d;
    ProductSign(s.depth - 0.5, d);
    assert d - s.depth * d == (1.0 - s.depth) * d;
    ProductSign(1.0 - s.depth, d);
  }

  /** Zooming scales a star's distance from its parallax anchor (the point
      it is drawn at with zero zoom), and a star's radius, by the zoom ratio. */
  lemma ZoomScalesStars(center: Point, v: View, k: real, s: Star)
    ensures var w := v.(zoom := k * v.zoom);
      var anchor := StarOnScreen(center, v.(zoom := 0.0), s);
      && StarOnScreen(center, w, s).x - anchor.x == k * (StarOnScreen(center, v, s).x - anchor.x)
      && StarOnScreen(center, w, s).y - anchor.y == k * (StarOnScreen(center, v, s).y - anchor.y)
      && StarRadius(w, s) == k * StarRadius(v, s)
  {
  }
}
